=== FILE: README.md ===
# ypmeteo in Dafny

A model of `ypmeteo`, the Python driver thread for the Yocto-Meteo USB
sensor (vendor 0x24E0, product 0x0018). The thread keeps a connection to
the device, reads 64-byte packets from endpoint 0x81, decodes temperature,
pressure and humidity from them, and exposes the latest values and a
connection flag.

The model has five modules:

- `Wrappers` (wrappers.dfy): `Option`.
- `Commands` (commands.dfy): the byte type and the 'start' and 'config'
  command buffers (`SCMD`, `CCMD`).
- `Packet` (packet.dfy): the packet decoder `__read`. `ScanFrom` is the
  record layout of a buffer (where each record starts, its header, and the
  sample it carries). `Apply` folds the samples into the readings. `Decode`
  is the reference decoder built from the two. `ReadPacket` is the loop of
  `__read` statement by statement, and it is proved equal to `Decode`.
  Parsing the ASCII payload (Python's `float`) is a parameter
  `parse: string -> Option<V>` that may fail, and `V` is the value type.
- `Driver` (driver.dfy): the connection state machine. The state is
  `State(running, stat, handle, reading)`. The operations are `__cleanup`
  (`Cleanup`), `__connect` (`Connect`, plus `ConnectAsWritten`), one loop
  iteration of `run` including its exception handler (`Iterate`), the
  `run` loop with its final cleanup (`Run`, `Loop`), `exit`
  (`RequestExit`), `connected` (`Connected`) and `envstr` (`EnvStr`).
  The USB library is an oracle. For each loop iteration, a `Usb` value
  gives the answers the device would give to `find` and the calls after
  it (`Probe`), or to a bulk read (`Transfer`). Calls from the caller's
  thread are `Exit` events between loop iterations.
- `Guard` (guard.dfy): the wait of `__enter__` for the first connection,
  with the timeout counted in whole ticks of 0.1 s, and the `exit` request
  it makes when it gives up.

How the code behaves at the edges of a packet, as the model states it:

- A payload that does not parse makes `float` raise ValueError out of
  `__read` (line 111). The scan stops, the updates of earlier records
  stay, and `run` clears `stat` (lines 140-142). `Decode` reports this as
  `ValueError(at)`, and `Iterate` disconnects.
- `bd[of]`, `bd[of + 1]` and `bd[of + 2]` raise IndexError when they lie
  past the buffer (lines 104-109). On a 64-byte buffer this happens for a
  header at offset 63 or a qualifying record at offset 62
  (`FullPacketOverrun`). `Decode` reports it as `IndexError(at)`, and
  `Iterate` disconnects. The payload slice is cut short at the end of the
  buffer, as Python slices are.
- The scan runs up to offset 64 whatever length the read returned
  (line 103), so the model accepts a buffer of any length.

## Model

| member | source | states |
|---|---|---|
| Commands.StartCommand | ypmeteo/__init__.py:12-17 | 64 bytes; bytes 1-4 are 0xF9, 0x09, 0x02, 0x01; every other byte is 0 |
| Commands.ConfigCommand | ypmeteo/__init__.py:19-23 | 64 bytes; bytes 0-2 are 0x08, 0xF9, 0x01; every other byte is 0 |
| Driver.Init | ypmeteo/__init__.py:31-44 | a new object has no run flag, no device, `connected()` false, and every reading at zero |
| Packet.ParseHeader | ypmeteo/__init__.py:104-107 | the stream id is below 32 and the size below 64 |
| Packet.HeaderFields | ypmeteo/__init__.py:105-107 | the stream id is byte 0 div 8 and the size is byte 1 div 4 |
| Packet.HeaderIgnoresSeqnoAndFlag | ypmeteo/__init__.py:104-107 | changing the sequence number (low 3 bits of byte 0) or the type flag (low 2 bits of byte 1) changes neither the stream id nor the size |
| Packet.KindOf | ypmeteo/__init__.py:110 | a subtype selects a reading exactly when it is 1, 2 or 3 |
| Packet.Code | ypmeteo/__init__.py:115-120 | each reading has exactly one subtype code, and it selects that reading |
| Packet.AsciiDecode | ypmeteo/__init__.py:111-112 | the 'ignore' decode: the text is no longer than the bytes and is pure ASCII; it has the same length exactly when every byte is ASCII, and then it has the same codes; one byte below 0x80 gives that character and one of 0x80 or above gives nothing |
| Packet.AsciiDecodeAppend | ypmeteo/__init__.py:111-112 | the decode works byte by byte: decoding a concatenation concatenates the decodings, so with the one-byte case every byte of 0x80 and above is dropped and the rest kept in order |
| Packet.Payload | ypmeteo/__init__.py:111 | the payload is the bytes after the subtype byte, at most size - 1 of them, exactly size - 1 when the buffer is long enough, and otherwise everything up to the end of the buffer |
| Packet.Update | ypmeteo/__init__.py:115-120 | a sample sets its own reading and leaves the other two unchanged |
| Packet.ScanFrom | ypmeteo/__init__.py:102-109 | each record starts size + 2 after the previous one; the scan ends normally at an offset of 64 or more, or stops below 64 at a record whose header or subtype byte lies past the buffer |
| Packet.ScanRecords | ypmeteo/__init__.py:103-121 | every record lies below 64, has its header bytes, and its subtype byte too when it qualifies, in the buffer, is decoded from its own offset, and starts at least 2 bytes after the previous one, so a packet has at most 32 records; a record carries a sample exactly when it is on stream 3 with size > 0 and subtype 1, 2 or 3, and the sample text is ASCII of at most size - 1 characters |
| Packet.ReadPacket | ypmeteo/__init__.py:99-121 | the loop of `__read` computes the same readings and the same ending as the reference decoder `Decode` |
| Packet.ReadFromIsRest | ypmeteo/__init__.py:103-121 | decoding record by record in one pass agrees with computing the layout first and then folding its samples into the readings |
| Packet.DecodeFault | ypmeteo/__init__.py:108-121 | decoding ends with the layout's own fault (none, or IndexError) exactly when every payload parses, and otherwise with a ValueError |
| Packet.FullPacketOverrun | ypmeteo/__init__.py:103-109 | on a 64-byte buffer, the scan raises IndexError exactly when it reaches a header at offset 63 or a qualifying record at offset 62, and no record is ever read from there; otherwise it ends at 64 or beyond |
| Packet.DecodeUntouched | ypmeteo/__init__.py:108-120 | a reading that no record of the packet carries keeps its value, however the scan ends |
| Packet.LastText | ypmeteo/__init__.py:115-121 | the last text of a subtype is the text of some record of that subtype with no later record of it, and there is none exactly when no record carries that subtype |
| Packet.DecodeWithoutSensorRecords | ypmeteo/__init__.py:108 | a packet without a stream-3 record changes no reading |
| Packet.DecodeLastWriterWins | ypmeteo/__init__.py:115-121 | when every payload parses, each reading is the value of the last record of its subtype, or unchanged if there is none |
| Packet.DecodeFailureStops | ypmeteo/__init__.py:111-121 | a payload that fails to parse stops the scan at its record; every earlier payload parsed, and the readings are exactly those the earlier records produced |
| Driver.RequestExit | ypmeteo/__init__.py:58-61 | `exit` clears the run flag and changes nothing else |
| Driver.ConnectedHoldsDevice | ypmeteo/__init__.py:46-49 | `connected()` reports the flag, and in every state `run` reaches from a new object it is true only while a device is open; after `run` ends it is false |
| Driver.Cleanup | ypmeteo/__init__.py:86-97 | after cleanup there is no handle and `connected()` is false; the run flag and readings are unchanged |
| Driver.Connect | ypmeteo/__init__.py:63-84 | connect first drops any previous handle, holds the found device or none, and is connected exactly when every call succeeds; it raises exactly when the device was found and some call failed, or when find raised; it writes only to a found device whose setup and drain returned, the start command first and the config command only after the start write returned, and both on success |
| Driver.ConnectAsWritten | ypmeteo/__init__.py:82-83 | as written, connect never sets `stat` and writes nothing; it raises whenever find raised or a device was found |
| Driver.ConnectAsWrittenFails | ypmeteo/__init__.py:82-84 | a healthy device connects under the intended connect but not under the one as written |
| Driver.AsWrittenIsFailedStart | ypmeteo/__init__.py:82-83 | the as-written connect ends in the same state, and raises in the same cases, as the intended one when the start write fails |
| Driver.IterateAsWritten | ypmeteo/__init__.py:129-143 | a loop iteration as written never connects a disconnected thread and keeps its readings |
| Driver.IterateAsWrittenIsFailedStart | ypmeteo/__init__.py:82-83 | every loop iteration as written equals the intended iteration on the same device with the start write failing, which makes `Run` over `AsWritten` the `run` loop as written |
| Driver.Iterate | ypmeteo/__init__.py:129-143 | while connected, a read timeout changes nothing, any other read error disconnects and keeps the readings, and a packet updates the readings and keeps the connection exactly when decoding raised nothing; while not connected, it reconnects and is connected exactly when every call succeeds; `stat` always implies a handle |
| Driver.Begin | ypmeteo/__init__.py:126-128 | `run` sets the flag only when `exit` has not cleared it already |
| Driver.Loop | ypmeteo/__init__.py:129-144 | the loop runs one iteration per tick before the first exit request; it ends exactly when an exit is requested, and then there is no handle and `stat` is false; `stat` implies a handle throughout |
| Driver.Run | ypmeteo/__init__.py:123-145 | `exit` before `run` means no iteration and one cleanup; otherwise the iterations are the ticks before the first exit, and the run ends exactly when an exit is requested |
| Driver.NeverConnects | ypmeteo/__init__.py:129-143 | with a device whose connect attempts never all succeed, the loop never becomes connected |
| Driver.AsWrittenNeverConnects | ypmeteo/__init__.py:82-84 | as written, `run` never becomes connected, whatever the device does |
| Driver.EnvStr | ypmeteo/__init__.py:51-56 | `envstr` is 'n/a' exactly when `connected()` is false |
| Guard.EnterFrom | ypmeteo/__init__.py:150-156 | from any poll on, the wait connects at a successful poll with only unsuccessful ones before it, gives up only with a timeout and only after unsuccessful polls, and keeps waiting only when no poll succeeded |
| Guard.Enter | ypmeteo/__init__.py:147-157 | `__enter__` connects at the first successful poll, with every earlier poll unsuccessful, and times out only with a timeout set and after at least one poll, none of them successful |
| Guard.EnterMatches | ypmeteo/__init__.py:147-157 | the `__enter__` wait connects at the first successful poll within the limit, times out after exactly max(ticks, 1) unsuccessful polls, and otherwise keeps waiting with the remaining ticks |
| Guard.NoTimeoutWithoutLimit | ypmeteo/__init__.py:150-153 | without a timeout the wait never gives up |
| Guard.TimesOutWhenNeverConnected | ypmeteo/__init__.py:150-155 | with a timeout of c ticks and a device that never connects, the wait gives up after exactly max(c, 1) polls |
| Guard.EnterEffect | ypmeteo/__init__.py:152-155 | `__enter__` leaves the connection, device and readings alone; on a timeout it sets the run flag to False by calling `exit` before raising, and otherwise it leaves the flag as it was |
| Guard.TimeoutStopsRun | ypmeteo/__init__.py:129-145 | after a timeout the `run` loop makes no further iteration and ends with the device released |

## Findings

| source | as written | input that shows it | evidently intended | confidence | as-written member | corrected member |
|---|---|---|---|---|---|---|
| ypmeteo/__init__.py:82-83 | `__connect` writes `scmd` and `ccmd`, which are never defined; the module constants are `SCMD` and `CCMD` | any device that is found and passes reset and flush: evaluating `scmd` raises NameError before the first write, `run` catches it at line 140, and `stat` never becomes true | write `SCMD` and then `CCMD` to endpoint 0x01, then set `stat` | high; not executed | Driver.ConnectAsWritten (shown by Driver.ConnectAsWrittenFails and Driver.AsWrittenNeverConnects) | Driver.Connect (used by Driver.Iterate) |

## Left out

- USB I/O (`usb.core.find`, `is_kernel_driver_active`, `detach_kernel_driver`, `reset`, `read`, `write`, `usb.util.dispose_resources`): foreign library calls. Each becomes an oracle outcome. A failing dispose is swallowed by the source, so `Cleanup` does not model it.
- The drain loop in `__connect` (lines 75-80) is one outcome. It ends in the expected timeout (`Ok`) or in another error (`Raised`). A device that never stops sending, which would keep that loop going forever, is not modelled.
- Threads (`threading.Thread`, `daemon`, `start`, `join`) and every `time.sleep`: concurrency and wall-clock timing. `run` is a sequence of atomic loop iterations, and `exit` happens only between iterations. The start of `run` (lines 126-128) is atomic too: in the source an `exit` that lands between the `is None` test and the assignment of True is overwritten and the loop keeps running, and the model does not have that window.
- `float` parsing of the payload and the `{0:0.1f},{1:0.0f},{2:0.0f}` formatting in `envstr`: floating point. Parsing is the parameter `parse`, and the formatters are parameters of `EnvStr`. Only the 'n/a' branch is stated exactly.
- The sequence number and the type flag (`pktno`, `pkt`): `pktno` is only logged (line 113) and `pkt` is computed and never used (line 106), so neither is decoded.
- Guard.EnterMatches: the source counts down a float by 0.1 and gives up when it is not above 0.01. The model counts whole ticks of 0.1 s, so float rounding in that countdown is not modelled. A timeout of t seconds corresponds to ceil(10 t - 0.1) ticks, which is 10 t when t is a multiple of 0.1 s. The call to `start()` before the wait is not modelled either: the polls are given as observations of `connected()`. The RuntimeError raised on a timeout is the `TimedOut` result, after the `exit` request of `EnterEffect`.
- `__exit__`: context-manager plumbing (calls `exit`, propagates the exception or joins the thread).
- Logging calls throughout.

=== FILE: commands.dfy ===
/** Fixed values of the Yocto-Meteo USB interface: the byte type, the
    buffer length and the two command buffers sent when a connection is
    made. */
module Commands {

  type Byte = bv8

  /** Length of every command buffer. */
  const BufferSize: nat := 64

  /** A zero-filled buffer of `n` bytes, as `bytearray(n)` creates it. */
  function Zeros(n: nat): (z: seq<Byte>)
    ensures |z| == n
    ensures forall i :: 0 <= i < n ==> z[i] == 0
  {
    seq(n, _ => 0)
  }

  /** The 'start' command: a zeroed 64-byte buffer with four bytes set. */
  function StartCommand(): (c: seq<Byte>)
    ensures |c| == BufferSize
    ensures c[1] == 0xF9 && c[2] == 0x09 && c[3] == 0x02 && c[4] == 0x01
    ensures forall i :: 0 <= i < BufferSize && (i < 1 || 4 < i) ==> c[i] == 0
  {
    Zeros(BufferSize)[1 := 0xF9][2 := 0x09][3 := 0x02][4 := 0x01]
  }

  /** The 'config' command: a zeroed 64-byte buffer with three bytes set. */
  function ConfigCommand(): (c: seq<Byte>)
    ensures |c| == BufferSize
    ensures c[0] == 0x08 && c[1] == 0xF9 && c[2] == 0x01
    ensures forall i :: 3 <= i < BufferSize ==> c[i] == 0
  {
    Zeros(BufferSize)[0 := 0x08][1 := 0xF9][2 := 0x01]
  }
}

=== FILE: driver.dfy ===
/** The connection state machine of the `ypmeteo` thread: `__connect`,
    `__cleanup`, the `run` loop, `exit`, `connected` and `envstr`.

    The USB library is an oracle: each loop iteration is handed the answers
    the device would give to whichever calls that iteration makes (`Usb`).
    Threads and sleeps are gone; `run` is a sequence of atomic loop
    iterations interleaved with `exit` requests from the caller. */
module Driver {
  import opened Wrappers
  import opened Commands
  import Packet

  /** An open USB device, known only by its identity. */
  datatype Handle = Handle(id: nat)

  /** How one USB library call ended: it returned, or it raised. */
  datatype Call = Ok | Raised

  /** What `usb.core.find` and the calls after it do during one connect:
      `setup` stands for the kernel-driver check, detach and reset, `flush`
      for the loop that drains stale data (Ok when it ends in the expected
      read timeout), `start` and `config` for the two command writes. */
  datatype Probe =
    | NotFound
    | FindRaised
    | Found(device: Handle, setup: Call, flush: Call, start: Call, config: Call)

  /** What one bulk read of 64 bytes from the input endpoint does. */
  datatype Transfer = Received(data: seq<Byte>) | TimedOut | Failed

  /** The device's answers to whichever question one loop iteration asks. */
  datatype Usb = Usb(probe: Probe, transfer: Transfer)

  /** Something that happens between two checks of the loop condition: the
      caller requests `exit`, or the loop runs one iteration. */
  datatype Event = Exit | Tick(usb: Usb)

  /** The thread object: the run flag (None before `run` or `exit`), the
      connection flag, the open device and the three readings. */
  datatype State<V> = State(running: Option<bool>, stat: bool, handle: Option<Handle>, reading: Packet.Reading<V>)

  /** A freshly constructed object: not running, not connected, no device,
      every reading at `zero`. */
  function Init<V>(zero: V): (d: State<V>)
    ensures d.running.None? && d.handle.None? && !Connected(d) && Valid(d)
    ensures forall k :: Packet.Get(d.reading, k) == zero
  {
    State(None, false, None, Packet.Reading(zero, zero, zero))
  }

  /** The invariant every transition keeps: connected implies a device. */
  ghost predicate Valid<V>(d: State<V>) {
    d.stat ==> d.handle.Some?
  }

  /** `connected()`: the connection flag. */
  function Connected<V>(d: State<V>): bool {
    d.stat
  }

  /** `exit()`: request the loop to stop; nothing else changes. */
  function RequestExit<V>(d: State<V>): (d': State<V>)
    ensures d'.running == Some(false)
    ensures d'.stat == d.stat && d'.handle == d.handle && d'.reading == d.reading
  {
    d.(running := Some(false))
  }

  /** `__cleanup`: release the device (a failing dispose is ignored) and
      drop the connection flag. */
  function Cleanup<V>(d: State<V>): (d': State<V>)
    ensures d'.handle.None? && !Connected(d')
    ensures d'.running == d.running && d'.reading == d.reading
  {
    d.(handle := None, stat := false)
  }

  /** The state a connect attempt leaves, the command buffers it wrote, and
      whether it raised. */
  datatype Attempt<V> = Attempt(state: State<V>, writes: seq<seq<Byte>>, raised: bool)

  /** Every call of a connect attempt returns normally. */
  predicate Healthy(p: Probe) {
    p.Found? && p.setup == Ok && p.flush == Ok && p.start == Ok && p.config == Ok
  }

  /** `__connect` as intended: clean up, look for the device, prepare it,
      drain it, then write the start and config commands. */
  function Connect<V>(d: State<V>, probe: Probe): (a: Attempt<V>)
    ensures a.state.running == d.running && a.state.reading == d.reading
    ensures a.state.handle == (if probe.Found? then Some(probe.device) else None)
    ensures Connected(a.state) <==> Healthy(probe)
    ensures a.raised <==> !probe.NotFound? && !Healthy(probe)
    ensures Healthy(probe) ==> a.writes == [Commands.StartCommand(), Commands.ConfigCommand()]
    ensures |a.writes| <= 2
    ensures forall i :: 0 <= i < |a.writes| ==> a.writes[i] == [Commands.StartCommand(), Commands.ConfigCommand()][i]
    ensures |a.writes| > 0 <==> probe.Found? && probe.setup == Ok && probe.flush == Ok
    ensures |a.writes| == 2 <==> probe.Found? && probe.setup == Ok && probe.flush == Ok && probe.start == Ok
  {
    var d1 := Cleanup(d);
    match probe
    case NotFound => Attempt(d1, [], false)
    case FindRaised => Attempt(d1, [], true)
    case Found(h, setup, flush, start, config) =>
      var d2 := d1.(handle := Some(h));
      if setup == Raised || flush == Raised then Attempt(d2, [], true)
      else if start == Raised then Attempt(d2, [Commands.StartCommand()], true)
      else if config == Raised then Attempt(d2, [Commands.StartCommand(), Commands.ConfigCommand()], true)
      else Attempt(d2.(stat := true), [Commands.StartCommand(), Commands.ConfigCommand()], false)
  }

  /** `__connect` as written: the writes name the undefined `scmd`, so once a
      device is found and prepared, evaluating the argument raises before any
      command is sent, and the connection flag is never set. */
  function ConnectAsWritten<V>(d: State<V>, probe: Probe): (a: Attempt<V>)
    ensures !Connected(a.state) && a.writes == []
    ensures a.raised <==> !probe.NotFound?
    ensures a.state.handle == (if probe.Found? then Some(probe.device) else None)
  {
    var d1 := Cleanup(d);
    match probe
    case NotFound => Attempt(d1, [], false)
    case FindRaised => Attempt(d1, [], true)
    case Found(h, setup, flush, _, _) =>
      var d2 := d1.(handle := Some(h));
      Attempt(d2, [], true)
  }

  /** A healthy device connects under the intended `__connect` and never
      under the one as written. */
  lemma ConnectAsWrittenFails()
    ensures var p := Found(Handle(0), Ok, Ok, Ok, Ok);
      var d := Init(0);
      && Connected(Connect(d, p).state)
      && !Connected(ConnectAsWritten(d, p).state)
  {
    var p := Found(Handle(0), Ok, Ok, Ok, Ok);
    assert Healthy(p);
  }

  /** The same probe with the start write failing. */
  function BreakStart(p: Probe): Probe {
    if p.Found? then p.(start := Raised) else p
  }

  /** As written, every connect ends in the state the intended one reaches
      when the start write fails. */
  lemma AsWrittenIsFailedStart<V>(d: State<V>, p: Probe)
    ensures ConnectAsWritten(d, p).state == Connect(d, BreakStart(p)).state
    ensures ConnectAsWritten(d, p).raised == Connect(d, BreakStart(p)).raised
  {
  }

  /** One iteration of the `run` loop body, including the exception handler
      around it: read and decode while connected, otherwise reconnect.
      `parse` stands for Python's `float`. */
  function Iterate<V>(d: State<V>, usb: Usb, parse: string -> Option<V>): (d': State<V>)
    ensures d'.running == d.running
    ensures Valid(d')
    ensures d.stat && d.handle.Some? ==> d'.handle == d.handle
    ensures d.stat && d.handle.Some? && usb.transfer.TimedOut? ==> d' == d
    ensures d.stat && d.handle.Some? && usb.transfer.Failed? ==> !Connected(d') && d'.reading == d.reading
    ensures d.stat && d.handle.Some? && usb.transfer.Received? ==>
              var dec := Packet.Decode(usb.transfer.data, d.reading, parse);
              d'.reading == dec.reading && (Connected(d') <==> dec.fault.None?)
    ensures !(d.stat && d.handle.Some?) ==>
              && d'.reading == d.reading
              && (Connected(d') <==> Healthy(usb.probe))
              && d'.handle == (if usb.probe.Found? then Some(usb.probe.device) else None)
  {
    if d.stat && d.handle.Some? then
      match usb.transfer
      case TimedOut => d
      case Failed => d.(stat := false)
      case Received(bd) =>
        var dec := Packet.Decode(bd, d.reading, parse);
        if dec.fault.None? then d.(reading := dec.reading)
        else d.(reading := dec.reading, stat := false)
    else
      var a := Connect(d, usb.probe);
      if a.raised then a.state.(stat := false) else a.state
  }

  /** How far `run` got: the loop ended (and cleaned up), or the events ran
      out while it was still looping. */
  datatype Progress<V> = Exited(final: State<V>, iterations: nat) | Looping(current: State<V>, iterations: nat)

  /** The loop iterations that happen before the first exit request. */
  function Attempts(events: seq<Event>): (n: nat)
    ensures n <= |events|
  {
    if events == [] || events[0].Exit? then 0 else 1 + Attempts(events[1..])
  }

  /** The `while self.__running` loop followed by the final `__cleanup`. */
  function Loop<V>(d: State<V>, events: seq<Event>, parse: string -> Option<V>, n: nat): (r: Progress<V>)
    decreases |events|
    ensures r.Exited? ==> r.final.handle.None? && !Connected(r.final) && r.final.running != Some(true)
    ensures d.running != Some(true) ==> r == Exited(Cleanup(d), n)
    ensures d.running == Some(true) ==>
              && r.iterations == n + Attempts(events)
              && (r.Exited? <==> Exit in events)
    ensures Valid(d) && r.Looping? ==> Valid(r.current)
  {
    if d.running != Some(true) then Exited(Cleanup(d), n)
    else if events == [] then Looping(d, n)
    else
      match events[0]
      case Exit => Loop(RequestExit(d), events[1..], parse, n)
      case Tick(usb) => Loop(Iterate(d, usb, parse), events[1..], parse, n + 1)
  }

  /** The start of `run`: the flag is set only if `exit` has not already
      cleared it. */
  function Begin<V>(d: State<V>): (d': State<V>)
    ensures d.running == Some(false) ==> d' == d
    ensures d.running != Some(false) ==> d'.running == Some(true)
    ensures d'.stat == d.stat && d'.handle == d.handle && d'.reading == d.reading
  {
    match d.running
    case None => d.(running := Some(true))
    case Some(_) => d
  }

  /** `run`: the flag is set only if `exit` has not already cleared it. */
  function Run<V>(d: State<V>, events: seq<Event>, parse: string -> Option<V>): (r: Progress<V>)
    ensures d.running == Some(false) ==> r == Exited(Cleanup(d), 0)
    ensures d.running != Some(false) ==>
              && r.iterations == Attempts(events)
              && (r.Exited? <==> Exit in events)
  {
    Loop(Begin(d), events, parse, 0)
  }

  /** With a device that never completes a connect, the loop never becomes
      connected. */
  lemma {:induction false} NeverConnects<V>(d: State<V>, events: seq<Event>, parse: string -> Option<V>, n: nat)
    requires !Connected(d)
    requires forall i :: 0 <= i < |events| && events[i].Tick? ==> !Healthy(events[i].usb.probe)
    ensures Loop(d, events, parse, n).Looping? ==> !Connected(Loop(d, events, parse, n).current)
    decreases |events|
  {
    if d.running == Some(true) && events != [] {
      assert forall i :: 0 <= i < |events[1..]| ==> events[1..][i] == events[i + 1];
      match events[0]
      case Exit =>
        NeverConnects(RequestExit(d), events[1..], parse, n);
      case Tick(usb) =>
        assert !Healthy(events[0].usb.probe);
        NeverConnects(Iterate(d, usb, parse), events[1..], parse, n + 1);
    }
  }

  /** Every event stream with each start write failing, which is what the
      as-written `__connect` does. */
  function AsWritten(events: seq<Event>): (e: seq<Event>)
    ensures |e| == |events|
    ensures forall i :: 0 <= i < |e| ==>
              (events[i].Exit? <==> e[i].Exit?) &&
              (events[i].Tick? ==> e[i].usb.transfer == events[i].usb.transfer && e[i].usb.probe == BreakStart(events[i].usb.probe))
  {
    if events == [] then []
    else
      var e := match events[0]
        case Exit => Exit
        case Tick(u) => Tick(u.(probe := BreakStart(u.probe)));
      [e] + AsWritten(events[1..])
  }

  /** As written, the driver never becomes connected, whatever the device
      does. */
  lemma AsWrittenNeverConnects<V>(d: State<V>, events: seq<Event>, parse: string -> Option<V>)
    requires !Connected(d)
    ensures Run(d, AsWritten(events), parse).Looping? ==> !Connected(Run(d, AsWritten(events), parse).current)
  {
    NeverConnects(Begin(d), AsWritten(events), parse, 0);
  }

  /** One iteration of `run` as written: the same as `Iterate`, but a
      reconnect goes through the as-written `__connect`. */
  function IterateAsWritten<V>(d: State<V>, usb: Usb, parse: string -> Option<V>): (d': State<V>)
    ensures !(d.stat && d.handle.Some?) ==> !Connected(d') && d'.reading == d.reading
  {
    if d.stat && d.handle.Some? then Iterate(d, usb, parse)
    else
      var a := ConnectAsWritten(d, usb.probe);
      if a.raised then a.state.(stat := false) else a.state
  }

  /** An iteration as written is the intended iteration on the same device
      with its start write failing, so `Run(d, AsWritten(events), parse)` is
      the `run` loop as written. */
  lemma IterateAsWrittenIsFailedStart<V>(d: State<V>, usb: Usb, parse: string -> Option<V>)
    ensures IterateAsWritten(d, usb, parse) == Iterate(d, usb.(probe := BreakStart(usb.probe)), parse)
  {
  }

  /** `connected()` reports the flag, and in every state `run` reaches from
      a freshly constructed object the flag implies an open device. */
  lemma ConnectedHoldsDevice<V>(zero: V, events: seq<Event>, parse: string -> Option<V>)
    ensures var r := Run(Init(zero), events, parse);
      && (r.Looping? && Connected(r.current) ==> r.current.handle.Some?)
      && (r.Exited? ==> !Connected(r.final))
  {
  }

  /** `envstr`: the three readings formatted (temperature with one decimal,
      humidity and pressure with none, comma separated) while connected,
      and 'n/a' otherwise. */
  function EnvStr<V>(d: State<V>, oneDecimal: V -> string, noDecimals: V -> string): (s: string)
    ensures s == "n/a" <==> !Connected(d)
  {
    if Connected(d) then
      var s := oneDecimal(d.reading.t) + "," + noDecimals(d.reading.h) + "," + noDecimals(d.reading.p);
      assert s[|oneDecimal(d.reading.t)|] == ',';
      assert ',' !in "n/a";
      s
    else "n/a"
  }
}

=== FILE: guard.dfy ===
/** The wait of `__enter__`: after starting the thread, poll `connected()`
    every 0.1 s until it holds; with a timeout, count it down by one tick
    (0.1 s) per unsuccessful poll and give up, requesting `exit`, once no
    positive time is left.

    Time is counted in whole ticks of 0.1 s. A timeout of `t` seconds that
    is a multiple of 0.1 s is `10 * t` ticks; in general the source gives
    up once `t - 0.1 * k` is no longer above 0.01, which, float rounding
    aside, is a countdown of `ceil(10 * t - 0.1)` ticks. `observed[i]` is
    what the i-th poll of `connected()` returned. */
module Guard {
  import opened Wrappers
  import Driver

  /** How the wait ended: connected after `polls` unsuccessful polls, timed
      out after `polls` unsuccessful polls (having requested `exit`), or
      still waiting with `left` ticks to go when the observations ran out. */
  datatype Entry = Entered(polls: nat) | TimedOut(polls: nat) | Waiting(left: Option<int>)

  /** The loop of `__enter__` from the `n`-th poll on, with `ct` ticks left:
      it connects at the first successful poll, gives up only with a timeout
      and only after unsuccessful polls, and keeps waiting only when no poll
      succeeded. */
  function EnterFrom(ct: Option<int>, observed: seq<bool>, n: nat): (e: Entry)
    decreases |observed|
    ensures e.Entered? ==>
              && n <= e.polls < n + |observed| && observed[e.polls - n]
              && forall j :: 0 <= j < e.polls - n ==> !observed[j]
    ensures e.TimedOut? ==>
              && ct.Some? && n < e.polls <= n + |observed|
              && forall j :: 0 <= j < e.polls - n ==> !observed[j]
    ensures e.Waiting? ==> forall j :: 0 <= j < |observed| ==> !observed[j]
  {
    if observed == [] then Waiting(ct)
    else if observed[0] then Entered(n)
    else
      match ct
      case None => EnterFrom(None, observed[1..], n + 1)
      case Some(c) =>
        if !(c - 1 > 0) then TimedOut(n + 1)
        else EnterFrom(Some(c - 1), observed[1..], n + 1)
  }

  /** `__enter__`: poll from the first observation on. */
  function Enter(ct: Option<int>, observed: seq<bool>): (e: Entry)
    ensures e.Entered? ==> e.polls < |observed| && observed[e.polls] && forall j :: 0 <= j < e.polls ==> !observed[j]
    ensures e.TimedOut? ==> ct.Some? && 0 < e.polls <= |observed| && forall j :: 0 <= j < e.polls ==> !observed[j]
    ensures e.Waiting? ==> forall j :: 0 <= j < |observed| ==> !observed[j]
  {
    EnterFrom(ct, observed, 0)
  }

  /** The number of unsuccessful polls a countdown of `ticks` allows: at
      least one, since the first poll happens before any time is checked. */
  function Limit(ticks: int): (n: nat)
    ensures n >= 1 && n >= ticks
    ensures ticks >= 1 ==> n == ticks
    ensures ticks < 1 ==> n == 1
  {
    if ticks >= 1 then ticks else 1
  }

  /** The index of the first successful poll, or the number of polls if
      none succeeded. */
  function FirstTrue(observed: seq<bool>): (k: nat)
    ensures k <= |observed|
    ensures k < |observed| ==> observed[k]
    ensures forall j :: 0 <= j < k ==> !observed[j]
  {
    if observed == [] || observed[0] then 0 else 1 + FirstTrue(observed[1..])
  }

  /** Independent statement of the wait: connected at the first successful
      poll if it comes within the limit, timed out after exactly `Limit`
      unsuccessful polls, and otherwise still waiting. */
  function Expected(ct: Option<int>, observed: seq<bool>): Entry {
    var k := FirstTrue(observed);
    match ct
    case None => if k < |observed| then Entered(k) else Waiting(None)
    case Some(c) =>
      if k < |observed| && k < Limit(c) then Entered(k)
      else if Limit(c) <= |observed| then TimedOut(Limit(c))
      else Waiting(Some(c - |observed|))
  }

  function Shift(e: Entry, n: nat): Entry {
    match e
    case Entered(k) => Entered(k + n)
    case TimedOut(k) => TimedOut(k + n)
    case Waiting(left) => Waiting(left)
  }

  lemma {:induction false} EnterFromMatches(ct: Option<int>, observed: seq<bool>, n: nat)
    ensures EnterFrom(ct, observed, n) == Shift(Expected(ct, observed), n)
    decreases |observed|
  {
    if observed != [] && !observed[0] {
      var rest := observed[1..];
      assert FirstTrue(observed) == 1 + FirstTrue(rest);
      match ct
      case None =>
        EnterFromMatches(None, rest, n + 1);
      case Some(c) =>
        if c - 1 > 0 {
          EnterFromMatches(Some(c - 1), rest, n + 1);
          assert Limit(c) == 1 + Limit(c - 1);
        }
    }
  }

  /** The loop of `__enter__` does what `Expected` states. */
  lemma EnterMatches(ct: Option<int>, observed: seq<bool>)
    ensures Enter(ct, observed) == Expected(ct, observed)
  {
    EnterFromMatches(ct, observed, 0);
    assert Shift(Expected(ct, observed), 0) == Expected(ct, observed);
  }

  /** Without a timeout the wait never gives up. */
  lemma NoTimeoutWithoutLimit(observed: seq<bool>)
    ensures !Enter(None, observed).TimedOut?
  {
    EnterMatches(None, observed);
  }

  /** With a timeout of `c` ticks and a device that never connects, the wait
      gives up after exactly `Limit(c)` polls. */
  lemma TimesOutWhenNeverConnected(c: int, observed: seq<bool>)
    requires Limit(c) <= |observed|
    requires forall i :: 0 <= i < |observed| ==> !observed[i]
    ensures Enter(Some(c), observed) == TimedOut(Limit(c))
  {
    EnterMatches(Some(c), observed);
    assert FirstTrue(observed) == |observed|;
  }

  /** What `__enter__` does to the thread: on a timeout it calls `exit`
      before raising, and otherwise it leaves the thread alone. */
  function EnterEffect<V>(d: Driver.State<V>, ct: Option<int>, observed: seq<bool>): (d': Driver.State<V>)
    ensures d'.stat == d.stat && d'.handle == d.handle && d'.reading == d.reading
    ensures d'.running == (if Enter(ct, observed).TimedOut? then Some(false) else d.running)
  {
    if Enter(ct, observed).TimedOut? then Driver.RequestExit(d) else d
  }

  /** After a timeout the thread's loop stops at its next check of the run
      flag: no further iteration happens and the device is released. */
  lemma TimeoutStopsRun<V>(d: Driver.State<V>, ct: Option<int>, observed: seq<bool>,
                           events: seq<Driver.Event>, parse: string -> Option<V>, n: nat)
    requires Enter(ct, observed).TimedOut?
    ensures var d' := EnterEffect(d, ct, observed);
      Driver.Loop(d', events, parse, n) == Driver.Exited(Driver.Cleanup(d'), n)
  {
  }
}

=== FILE: packet.dfy ===
/** The sensor packet decoder (`ypmeteo.__read`).

    A packet is scanned from offset 0 as back-to-back records. Each record
    starts with two header bytes: byte 0 holds a sequence number (bits 0-2)
    and a stream id (bits 3-7), byte 1 a type flag (bits 0-1) and a size
    (bits 2-7). A record of stream 3 with a non-zero size carries a subtype
    byte and an ASCII payload of `size - 1` bytes; subtypes 1, 2 and 3 are
    temperature, pressure and humidity. The next record starts `size + 2`
    bytes further on, and the scan stops once the offset reaches 64.

    The decoder is given twice: `Decode` is the reference, the fold of
    per-record updates (`Apply`) over the record layout (`ScanFrom`);
    `ReadPacket` is the scanning loop itself, proved equal to it. */
module Packet {
  import opened Wrappers
  import opened Commands

  /** The scan stops at this offset whatever the length of the buffer. */
  const PacketSize: nat := 64

  /** The stream that carries sensor values. */
  const SensorStream: nat := 3

  /** The two header fields that drive the scan. The sequence number and the
      type flag are only logged, so they are not kept. */
  datatype Header = Header(stream: nat, size: nat)

  /** Bit-field extraction: `stream = (b0 >> 3) & 0x1f`, `size = (b1 >> 2) & 0x3f`. */
  function ParseHeader(b0: Byte, b1: Byte): (h: Header)
    ensures h.stream < 32 && h.size < 64
  {
    Header(((b0 >> 3) & 0x1F) as int, ((b1 >> 2) & 0x3F) as int)
  }

  /** The stream id is byte 0 without its low 3 bits and the size is byte 1
      without its low 2 bits. */
  lemma HeaderFields(b0: Byte, b1: Byte)
    ensures ParseHeader(b0, b1).stream == b0 as int / 8
    ensures ParseHeader(b0, b1).size == b1 as int / 4
  {
  }

  /** Headers that differ only in the sequence number (low 3 bits of byte 0)
      and the type flag (low 2 bits of byte 1) parse the same. */
  lemma HeaderIgnoresSeqnoAndFlag(b0: Byte, b1: Byte, seqno: Byte, flag: Byte)
    requires seqno < 8 && flag < 4
    ensures ParseHeader((b0 & 0xF8) | seqno, (b1 & 0xFC) | flag) == ParseHeader(b0, b1)
  {
  }

  /** A record that has a subtype byte: sensor stream and a non-empty body. */
  predicate Qualifies(h: Header) {
    h.stream == SensorStream && h.size > 0
  }

  datatype Kind = Temperature | Pressure | Humidity

  /** The subtype code of each reading. */
  function Code(k: Kind): (b: Byte)
    ensures KindOf(b) == Some(k)
    ensures forall sb :: KindOf(sb) == Some(k) ==> sb == b
  {
    match k
    case Temperature => 1
    case Pressure => 2
    case Humidity => 3
  }

  /** The reading a subtype byte selects; every other code is skipped. */
  function KindOf(sb: Byte): (k: Option<Kind>)
    ensures k.Some? <==> sb == 1 || sb == 2 || sb == 3
  {
    if sb == 1 then Some(Temperature)
    else if sb == 2 then Some(Pressure)
    else if sb == 3 then Some(Humidity)
    else None
  }

  /** `bytes.decode('ascii', 'ignore')`: bytes of 0x80 and above are dropped,
      the others become the character with the same code. */
  function AsciiDecode(bs: seq<Byte>): (s: string)
    ensures |s| <= |bs|
    ensures forall i :: 0 <= i < |s| ==> s[i] as int < 0x80
    ensures |s| == |bs| <==> forall i :: 0 <= i < |bs| ==> bs[i] < 0x80
    ensures (forall i :: 0 <= i < |bs| ==> bs[i] < 0x80) ==>
              forall i :: 0 <= i < |bs| ==> s[i] as int == bs[i] as int
    ensures |bs| == 1 ==> s == (if bs[0] < 0x80 then [(bs[0] as int) as char] else "")
  {
    if bs == [] then ""
    else if bs[0] < 0x80 then [(bs[0] as int) as char] + AsciiDecode(bs[1..])
    else AsciiDecode(bs[1..])
  }

  /** The decode works byte by byte: decoding a concatenation concatenates
      the decodings, so together with the one-byte case it fixes the text. */
  lemma {:induction false} AsciiDecodeAppend(a: seq<Byte>, b: seq<Byte>)
    ensures AsciiDecode(a + b) == AsciiDecode(a) + AsciiDecode(b)
    decreases |a|
  {
    if a != [] {
      assert (a + b)[0] == a[0];
      assert (a + b)[1..] == a[1..] + b;
      AsciiDecodeAppend(a[1..], b);
    } else {
      assert a + b == b;
    }
  }

  function Min(a: int, b: int): int {
    if a <= b then a else b
  }

  /** The payload slice `bd[at + 3 : at + 3 + size - 1]`: `size - 1` bytes
      after the subtype byte, cut short by the end of the buffer. */
  function Payload(bd: seq<Byte>, at: nat, size: nat): (p: seq<Byte>)
    requires at + 3 <= |bd|
    requires size > 0
    ensures |p| <= size - 1
    ensures at + 2 + size <= |bd| ==> |p| == size - 1
    ensures at + 2 + size > |bd| ==> at + 3 + |p| == |bd|
    ensures forall i :: 0 <= i < |p| ==> p[i] == bd[at + 3 + i]
  {
    bd[at + 3 .. Min(at + 2 + size, |bd|)]
  }

  /** The value one record carries: which reading, and its text. */
  datatype Sample = Sample(kind: Kind, text: string)

  /** One record of a packet: where it starts, its header, and the sample it
      carries, if any. */
  datatype Record = Record(at: nat, header: Header, sample: Option<Sample>)

  /** The records a scan visits, the offset where it stopped, and whether it
      stopped because a header or subtype byte lay past the buffer. */
  datatype Layout = Layout(records: seq<Record>, end: nat, overrun: bool)

  /** The record at `at` needs a byte the buffer does not have: the header
      itself, or the subtype byte of a qualifying record. */
  predicate Overruns(bd: seq<Byte>, at: nat) {
    at + 1 >= |bd| || (Qualifies(ParseHeader(bd[at], bd[at + 1])) && at + 2 >= |bd|)
  }

  function RecordAt(bd: seq<Byte>, at: nat): Record
    requires !Overruns(bd, at)
  {
    var h := ParseHeader(bd[at], bd[at + 1]);
    if Qualifies(h) then
      match KindOf(bd[at + 2])
      case Some(k) => Record(at, h, Some(Sample(k, AsciiDecode(Payload(bd, at, h.size)))))
      case None => Record(at, h, None)
    else Record(at, h, None)
  }

  /** What a record read at its offset promises: every byte it needs lies in
      the buffer (its header, and its subtype byte when it qualifies), the
      header comes from its two bytes, and it carries a sample exactly when
      it qualifies and its subtype is known; the sample's text is pure ASCII
      of at most `size - 1` characters taken from the payload. */
  ghost predicate Describes(bd: seq<Byte>, r: Record) {
    && r.at < PacketSize
    && r.at + 1 < |bd|
    && !Overruns(bd, r.at)
    && r.header == ParseHeader(bd[r.at], bd[r.at + 1])
    && (r.sample.Some? <==>
          Qualifies(r.header) && r.at + 2 < |bd| && KindOf(bd[r.at + 2]).Some?)
    && (r.sample.Some? ==>
          && KindOf(bd[r.at + 2]) == Some(r.sample.value.kind)
          && |r.sample.value.text| <= r.header.size - 1
          && r.sample.value.text == AsciiDecode(Payload(bd, r.at, r.header.size)))
  }

  /** Each record starts where the previous one ended (`size + 2` further),
      the first at `start`, and the scan ends where the last one ended. */
  ghost predicate Chained(rs: seq<Record>, start: nat, end: nat)
    decreases |rs|
  {
    if rs == [] then end == start
    else rs[0].at == start && Chained(rs[1..], start + rs[0].header.size + 2, end)
  }

  /** The record layout of `bd` from offset `of` on: the loop of `__read`
      without the value updates. */
  function ScanFrom(bd: seq<Byte>, of: nat): (l: Layout)
    decreases if of < PacketSize then PacketSize - of else 0
    ensures Chained(l.records, of, l.end)
    ensures of >= PacketSize ==> l == Layout([], of, false)
    ensures !l.overrun ==> l.end >= PacketSize
    ensures l.overrun ==> of <= l.end < PacketSize && Overruns(bd, l.end)
  {
    if of >= PacketSize then Layout([], of, false)
    else if Overruns(bd, of) then Layout([], of, true)
    else
      var r := RecordAt(bd, of);
      var rest := ScanFrom(bd, of + r.header.size + 2);
      Layout([r] + rest.records, rest.end, rest.overrun)
  }

  /** Every record of a scan is read faithfully from its offset, lies below
      64, and starts at least two bytes after the previous one, so a scan
      from offset 0 visits at most 32 records. */
  lemma {:induction false} ScanRecords(bd: seq<Byte>, of: nat)
    ensures var rs := ScanFrom(bd, of).records;
      && (of < PacketSize ==> 2 * |rs| <= PacketSize + 1 - of)
      && (forall i :: 0 <= i < |rs| ==> of <= rs[i].at && Describes(bd, rs[i]))
      && (forall i, j :: 0 <= i < j < |rs| ==> rs[i].at + 2 <= rs[j].at)
    decreases if of < PacketSize then PacketSize - of else 0
  {
    if of < PacketSize && !Overruns(bd, of) {
      var r := RecordAt(bd, of);
      var next := of + r.header.size + 2;
      ScanRecords(bd, next);
      var rs := ScanFrom(bd, of).records;
      var rest := ScanFrom(bd, next).records;
      assert rs == [r] + rest;
      assert Describes(bd, r);
      forall i | 0 < i < |rs|
        ensures rs[i] == rest[i - 1] && next <= rs[i].at
      {
      }
    }
  }

  /** The three readings; `t`, `h` and `p` start at 0.0 in the source. */
  datatype Reading<V> = Reading(t: V, h: V, p: V)

  function Get<V>(r: Reading<V>, k: Kind): V {
    match k
    case Temperature => r.t
    case Pressure => r.p
    case Humidity => r.h
  }

  /** Subtype 1 sets `t`, 2 sets `p`, 3 sets `h`; nothing else changes. */
  function Update<V>(r: Reading<V>, k: Kind, v: V): (r': Reading<V>)
    ensures Get(r', k) == v
    ensures forall k' :: k' != k ==> Get(r', k') == Get(r, k')
  {
    match k
    case Temperature => r.(t := v)
    case Pressure => r.(p := v)
    case Humidity => r.(h := v)
  }

  /** Why a scan stopped early: `bd[at + 1]` or `bd[at + 2]` was past the
      buffer (IndexError), or the payload of the record at `at` was not a
      number (ValueError). */
  datatype Fault = IndexError(at: nat) | ValueError(at: nat)

  /** The readings after a scan, and the exception that ended it, if any. */
  datatype Decoded<V> = Decoded(reading: Reading<V>, fault: Option<Fault>)

  function Tail(l: Layout): Option<Fault> {
    if l.overrun then Some(IndexError(l.end)) else None
  }

  /** Applies the samples of `rs` in order; the first payload that does not
      parse stops everything, and otherwise the scan ends with `last`. */
  function Apply<V>(r: Reading<V>, rs: seq<Record>, parse: string -> Option<V>, last: Option<Fault>): (d: Decoded<V>)
    decreases |rs|
  {
    if rs == [] then Decoded(r, last)
    else
      match rs[0].sample
      case None => Apply(r, rs[1..], parse, last)
      case Some(s) =>
        match parse(s.text)
        case None => Decoded(r, Some(ValueError(rs[0].at)))
        case Some(v) => Apply(Update(r, s.kind, v), rs[1..], parse, last)
  }

  /** What is left of the reference decoder once `of` is reached with
      readings `r`. */
  function Rest<V>(bd: seq<Byte>, of: nat, r: Reading<V>, parse: string -> Option<V>): Decoded<V> {
    var l := ScanFrom(bd, of);
    Apply(r, l.records, parse, Tail(l))
  }

  /** The reference decoder: the readings after scanning `bd` starting from
      `r`, with `parse` standing for Python's `float`. */
  function Decode<V>(bd: seq<Byte>, r: Reading<V>, parse: string -> Option<V>): Decoded<V> {
    Rest(bd, 0, r, parse)
  }

  /** One iteration of the scan: the record at `of` is applied, then the
      scan resumes `size + 2` bytes further on. */
  lemma RestStep<V>(bd: seq<Byte>, of: nat, r: Reading<V>, parse: string -> Option<V>)
    requires of < PacketSize && !Overruns(bd, of)
    ensures var rec := RecordAt(bd, of);
      var next := of + rec.header.size + 2;
      Rest(bd, of, r, parse) ==
        match rec.sample
        case None => Rest(bd, next, r, parse)
        case Some(s) =>
          match parse(s.text)
          case None => Decoded(r, Some(ValueError(of)))
          case Some(v) => Rest(bd, next, Update(r, s.kind, v), parse)
  {
    var rec := RecordAt(bd, of);
    var l := ScanFrom(bd, of + rec.header.size + 2);
    assert ScanFrom(bd, of).records == [rec] + l.records;
    assert ([rec] + l.records)[1..] == l.records;
  }

  /** The decoder as one pass over the packet, record by record: the shape
      of the loop in `__read`. */
  function ReadFrom<V>(bd: seq<Byte>, of: nat, r: Reading<V>, parse: string -> Option<V>): Decoded<V>
    decreases if of < PacketSize then PacketSize - of else 0
  {
    if of >= PacketSize then Decoded(r, None)
    else if Overruns(bd, of) then Decoded(r, Some(IndexError(of)))
    else
      var rec := RecordAt(bd, of);
      var next := of + rec.header.size + 2;
      match rec.sample
      case None => ReadFrom(bd, next, r, parse)
      case Some(s) =>
        match parse(s.text)
        case None => Decoded(r, Some(ValueError(of)))
        case Some(v) => ReadFrom(bd, next, Update(r, s.kind, v), parse)
  }

  /** The single pass and the layout-then-fold decoder agree everywhere. */
  lemma {:induction false} ReadFromIsRest<V>(bd: seq<Byte>, of: nat, r: Reading<V>, parse: string -> Option<V>)
    ensures ReadFrom(bd, of, r, parse) == Rest(bd, of, r, parse)
    decreases if of < PacketSize then PacketSize - of else 0
  {
    if of < PacketSize && !Overruns(bd, of) {
      RestStep(bd, of, r, parse);
      var rec := RecordAt(bd, of);
      var next := of + rec.header.size + 2;
      match rec.sample
      case None =>
        ReadFromIsRest(bd, next, r, parse);
      case Some(s) =>
        if parse(s.text).Some? {
          ReadFromIsRest(bd, next, Update(r, s.kind, parse(s.text).value), parse);
        }
    }
  }

  /** A record without a known sample is stepped over. */
  lemma SkipRecord<V>(bd: seq<Byte>, of: nat, r: Reading<V>, parse: string -> Option<V>)
    requires of < PacketSize && of + 1 < |bd|
    requires var h := ParseHeader(bd[of], bd[of + 1]);
      !(h.stream == SensorStream && h.size > 0) ||
      (of + 2 < |bd| && !(bd[of + 2] == 1 || bd[of + 2] == 2 || bd[of + 2] == 3))
    ensures ReadFrom(bd, of, r, parse) == ReadFrom(bd, of + ParseHeader(bd[of], bd[of + 1]).size + 2, r, parse)
  {
  }

  /** A record with a known sample sets its reading when its payload parses,
      and stops the scan otherwise. */
  lemma TakeRecord<V>(bd: seq<Byte>, of: nat, r: Reading<V>, parse: string -> Option<V>)
    requires of < PacketSize && of + 2 < |bd|
    requires var h := ParseHeader(bd[of], bd[of + 1]);
      h.stream == SensorStream && h.size > 0 && (bd[of + 2] == 1 || bd[of + 2] == 2 || bd[of + 2] == 3)
    ensures var h := ParseHeader(bd[of], bd[of + 1]);
      var val := parse(AsciiDecode(Payload(bd, of, h.size)));
      && (val.None? ==> ReadFrom(bd, of, r, parse) == Decoded(r, Some(ValueError(of))))
      && (val.Some? ==> ReadFrom(bd, of, r, parse) == ReadFrom(bd, of + h.size + 2, Update(r, KindOf(bd[of + 2]).value, val.value), parse))
  {
    var h := ParseHeader(bd[of], bd[of + 1]);
    assert !Overruns(bd, of);
    assert RecordAt(bd, of) == Record(of, h, Some(Sample(KindOf(bd[of + 2]).value, AsciiDecode(Payload(bd, of, h.size)))));
  }

  /** The loop of `__read`, statement by statement, on a buffer already read. */
  method ReadPacket<V>(bd: seq<Byte>, r0: Reading<V>, parse: string -> Option<V>) returns (d: Decoded<V>)
    ensures d == Decode(bd, r0, parse)
  {
    var r := r0;
    var of: nat := 0;
    ReadFromIsRest(bd, 0, r0, parse);
    while of < PacketSize
      invariant ReadFrom(bd, of, r, parse) == Decode(bd, r0, parse)
      decreases PacketSize - of
    {
      if of + 1 >= |bd| {
        return Decoded(r, Some(IndexError(of)));
      }
      var h := ParseHeader(bd[of], bd[of + 1]);
      if h.stream == SensorStream && h.size > 0 {
        if of + 2 >= |bd| {
          return Decoded(r, Some(IndexError(of)));
        }
        var sb := bd[of + 2];
        if sb == 1 || sb == 2 || sb == 3 {
          TakeRecord(bd, of, r, parse);
          var val := parse(AsciiDecode(Payload(bd, of, h.size)));
          if val.None? {
            return Decoded(r, Some(ValueError(of)));
          }
          ghost var expected := Update(r, KindOf(sb).value, val.value);
          if sb == 1 {
            r := r.(t := val.value);
          } else if sb == 2 {
            r := r.(p := val.value);
          } else {
            r := r.(h := val.value);
          }
          assert r == expected;
        } else {
          SkipRecord(bd, of, r, parse);
        }
      } else {
        SkipRecord(bd, of, r, parse);
      }
      of := of + h.size + 2;
    }
    d := Decoded(r, None);
  }

  // ---------------------------------------------------------------------
  // Properties of the decoder
  // ---------------------------------------------------------------------

  /** The last text among the samples of kind `k` in `rs`. */
  function LastText(rs: seq<Record>, k: Kind): (t: Option<string>)
    ensures t.Some? ==> exists i :: 0 <= i < |rs| && rs[i].sample == Some(Sample(k, t.value))
                                     && forall j :: i < j < |rs| ==> !HasSample(rs[j], k)
    ensures t.None? ==> forall i :: 0 <= i < |rs| ==> !HasSample(rs[i], k)
    decreases |rs|
  {
    if rs == [] then None
    else
      match LastText(rs[1..], k)
      case Some(s) => Some(s)
      case None =>
        if rs[0].sample.Some? && rs[0].sample.value.kind == k then Some(rs[0].sample.value.text) else None
  }

  /** No payload in `rs` fails to parse. */
  ghost predicate AllParse<V>(rs: seq<Record>, parse: string -> Option<V>) {
    forall i :: 0 <= i < |rs| && rs[i].sample.Some? ==> parse(rs[i].sample.value.text).Some?
  }

  /** A scan fault that does not come from a payload. */
  predicate Structural(f: Option<Fault>) {
    f.None? || f.value.IndexError?
  }

  /** Apply keeps the structural fault it was given exactly when every
      payload parses; otherwise it ends with a ValueError. */
  lemma {:induction false} ApplyFault<V>(r: Reading<V>, rs: seq<Record>, parse: string -> Option<V>, last: Option<Fault>)
    requires Structural(last)
    ensures Apply(r, rs, parse, last).fault == last <==> AllParse(rs, parse)
    ensures !AllParse(rs, parse) ==> Apply(r, rs, parse, last).fault.Some? && Apply(r, rs, parse, last).fault.value.ValueError?
    decreases |rs|
  {
    if rs != [] {
      if rs[0].sample.Some? && parse(rs[0].sample.value.text).None? {
        assert !AllParse(rs, parse);
      } else {
        var r' := if rs[0].sample.Some? then Update(r, rs[0].sample.value.kind, parse(rs[0].sample.value.text).value) else r;
        ApplyFault(r', rs[1..], parse, last);
        AllParseTail(rs, parse);
      }
    }
  }

  lemma AllParseTail<V>(rs: seq<Record>, parse: string -> Option<V>)
    requires rs != []
    requires rs[0].sample.Some? ==> parse(rs[0].sample.value.text).Some?
    ensures AllParse(rs, parse) <==> AllParse(rs[1..], parse)
  {
    if AllParse(rs[1..], parse) {
      forall i | 0 <= i < |rs| && rs[i].sample.Some?
        ensures parse(rs[i].sample.value.text).Some?
      {
        if i > 0 { assert rs[i] == rs[1..][i - 1]; }
      }
    }
  }

  /** Applying samples none of which is of kind `k` leaves reading `k` as it
      was, even when a later payload fails to parse. */
  lemma {:induction false} ApplyUntouched<V>(r: Reading<V>, rs: seq<Record>, parse: string -> Option<V>, last: Option<Fault>, k: Kind)
    requires forall i :: 0 <= i < |rs| && rs[i].sample.Some? ==> rs[i].sample.value.kind != k
    ensures Get(Apply(r, rs, parse, last).reading, k) == Get(r, k)
    decreases |rs|
  {
    if rs != [] {
      var r' := if rs[0].sample.Some? && parse(rs[0].sample.value.text).Some?
                then Update(r, rs[0].sample.value.kind, parse(rs[0].sample.value.text).value) else r;
      assert forall i :: 0 <= i < |rs[1..]| ==> rs[1..][i] == rs[i + 1];
      ApplyUntouched(r', rs[1..], parse, last, k);
    }
  }

  /** When every payload parses, reading `k` ends as the value of the last
      sample of kind `k`, or as it was if there is none. */
  lemma {:induction false} ApplyLast<V>(r: Reading<V>, rs: seq<Record>, parse: string -> Option<V>, last: Option<Fault>, k: Kind)
    requires AllParse(rs, parse)
    ensures Get(Apply(r, rs, parse, last).reading, k) ==
              match LastText(rs, k)
              case None => Get(r, k)
              case Some(text) => parse(text).GetOr(Get(r, k))
    decreases |rs|
  {
    if rs != [] {
      AllParseTail(rs, parse);
      match rs[0].sample
      case None =>
        ApplyLast(r, rs[1..], parse, last, k);
      case Some(s) =>
        assert parse(rs[0].sample.value.text).Some?;
        var v := parse(s.text).value;
        ApplyLast(Update(r, s.kind, v), rs[1..], parse, last, k);
        assert Apply(r, rs, parse, last) == Apply(Update(r, s.kind, v), rs[1..], parse, last);
        if LastText(rs[1..], k).None? {
          assert LastText(rs, k) == if s.kind == k then Some(s.text) else None;
        } else {
          assert LastText(rs, k) == LastText(rs[1..], k);
          var i :| 0 <= i < |rs[1..]| && rs[1..][i].sample == Some(Sample(k, LastText(rs[1..], k).value));
          assert rs[1..][i] == rs[i + 1];
        }
    }
  }

  /** A payload that does not parse ends the scan at its record: every
      earlier payload parsed, and the readings are those the earlier records
      produced. */
  lemma {:induction false} ApplyFailure<V>(r: Reading<V>, rs: seq<Record>, parse: string -> Option<V>, last: Option<Fault>, at: nat)
    returns (j: nat)
    requires Structural(last)
    requires Apply(r, rs, parse, last).fault == Some(ValueError(at))
    ensures j < |rs| && rs[j].at == at
    ensures rs[j].sample.Some? && parse(rs[j].sample.value.text).None?
    ensures AllParse(rs[..j], parse)
    ensures Apply(r, rs, parse, last).reading == Apply(r, rs[..j], parse, None).reading
    decreases |rs|
  {
    if rs[0].sample.Some? && parse(rs[0].sample.value.text).None? {
      j := 0;
    } else {
      var r' := if rs[0].sample.Some?
                then Update(r, rs[0].sample.value.kind, parse(rs[0].sample.value.text).value) else r;
      var j' := ApplyFailure(r', rs[1..], parse, last, at);
      j := j' + 1;
      var pre := rs[..j];
      assert pre[0] == rs[0];
      assert pre[1..] == rs[1..][..j'];
      AllParseTail(pre, parse);
    }
  }

  /** Decoding ends with the structural fault of the layout exactly when
      every payload parses, and otherwise with a ValueError. */
  lemma DecodeFault<V>(bd: seq<Byte>, r: Reading<V>, parse: string -> Option<V>)
    ensures Decode(bd, r, parse).fault == Tail(ScanFrom(bd, 0)) <==> AllParse(ScanFrom(bd, 0).records, parse)
    ensures !AllParse(ScanFrom(bd, 0).records, parse) ==>
              Decode(bd, r, parse).fault.Some? && Decode(bd, r, parse).fault.value.ValueError?
  {
    var l := ScanFrom(bd, 0);
    ApplyFault(r, l.records, parse, Tail(l));
  }

  /** On a full 64-byte buffer the scan runs past the end exactly when it
      reaches a header starting at offset 63, or a qualifying record at
      offset 62: no record is ever read from there, and otherwise the scan
      ends at an offset of 64 or more. */
  lemma FullPacketOverrun(bd: seq<Byte>)
    requires |bd| == PacketSize
    ensures var l := ScanFrom(bd, 0);
      && (l.overrun <==> l.end == 63 || (l.end == 62 && Qualifies(ParseHeader(bd[62], bd[63]))))
      && (!l.overrun ==> l.end >= PacketSize)
      && forall i :: 0 <= i < |l.records| ==>
           l.records[i].at != 63 && !(l.records[i].at == 62 && Qualifies(l.records[i].header))
  {
    var l := ScanFrom(bd, 0);
    ScanRecords(bd, 0);
    if l.overrun {
      assert Overruns(bd, l.end);
    }
  }

  /** A reading no record of the packet carries keeps its value, whatever
      else the packet holds and however the scan ends. */
  lemma DecodeUntouched<V>(bd: seq<Byte>, r: Reading<V>, parse: string -> Option<V>, k: Kind)
    requires forall i :: 0 <= i < |ScanFrom(bd, 0).records| ==> !HasSample(ScanFrom(bd, 0).records[i], k)
    ensures Get(Decode(bd, r, parse).reading, k) == Get(r, k)
  {
    var l := ScanFrom(bd, 0);
    ApplyUntouched(r, l.records, parse, Tail(l), k);
  }

  predicate HasSample(rec: Record, k: Kind) {
    rec.sample.Some? && rec.sample.value.kind == k
  }

  /** A packet without a sensor-stream record changes no reading. */
  lemma DecodeWithoutSensorRecords<V>(bd: seq<Byte>, r: Reading<V>, parse: string -> Option<V>)
    requires forall i :: 0 <= i < |ScanFrom(bd, 0).records| ==> ScanFrom(bd, 0).records[i].header.stream != SensorStream
    ensures Decode(bd, r, parse).reading == r
  {
    var l := ScanFrom(bd, 0);
    ScanRecords(bd, 0);
    forall k: Kind
      ensures Get(Decode(bd, r, parse).reading, k) == Get(r, k)
    {
      DecodeUntouched(bd, r, parse, k);
    }
    var d := Decode(bd, r, parse).reading;
    assert Get(d, Temperature) == Get(r, Temperature);
    assert Get(d, Pressure) == Get(r, Pressure);
    assert Get(d, Humidity) == Get(r, Humidity);
  }

  /** Last writer wins: when every payload parses, each reading is the value
      of the last record of its subtype, or unchanged if there is none. */
  lemma DecodeLastWriterWins<V>(bd: seq<Byte>, r: Reading<V>, parse: string -> Option<V>, k: Kind)
    requires AllParse(ScanFrom(bd, 0).records, parse)
    ensures Get(Decode(bd, r, parse).reading, k) ==
              match LastText(ScanFrom(bd, 0).records, k)
              case None => Get(r, k)
              case Some(text) => parse(text).GetOr(Get(r, k))
  {
    var l := ScanFrom(bd, 0);
    ApplyLast(r, l.records, parse, Tail(l), k);
  }

  /** A payload that fails to parse stops the scan at its record, and the
      updates of the records before it persist. */
  lemma DecodeFailureStops<V>(bd: seq<Byte>, r: Reading<V>, parse: string -> Option<V>, at: nat)
    returns (j: nat)
    requires Decode(bd, r, parse).fault == Some(ValueError(at))
    ensures var rs := ScanFrom(bd, 0).records;
      && j < |rs| && rs[j].at == at
      && rs[j].sample.Some? && parse(rs[j].sample.value.text).None?
      && AllParse(rs[..j], parse)
      && Decode(bd, r, parse).reading == Apply(r, rs[..j], parse, None).reading
  {
    var l := ScanFrom(bd, 0);
    j := ApplyFailure(r, l.records, parse, Tail(l), at);
  }
}

=== FILE: wrappers.dfy ===
/** Optional values, used for the device handle, the run flag and the
    results of operations that may fail. */
module Wrappers {

  datatype Option<+T> = None | Some(value: T) {

    /** The wrapped value, or `default` when there is none. */
    function GetOr(default: T): T {
      match this
      case Some(v) => v
      case None => default
    }
  }
}
